=== FILE: README.md ===
# Plugin calculator: the event table and the calculator it drives

This project models, in Dafny, the core of a small JavaScript demonstration
of plugin-based extensibility (`demo.js`):

- **`Hooks`**, an event table mapping an event name to the ordered list of
  handlers registered under it, with `on` (append), `trigger` (call every
  handler in registration order and collect the results), `off` (drop every
  occurrence of one handler) and `destroy` (clear everything);
- **`Calculator`**, one numeric `currentValue` whose every change goes
  through `setValue`: `valueWillChanged` handlers can veto it by returning a
  falsy value, and `valueChanged` then reports the value kept. `plus` and
  `minus` delegate to `setValue`; `press(name, x)` runs every callback that
  the `pressed` handlers return, in order, each through `setValue` on the
  value the previous one left;
- the demo's plugins (`LimitPlugins`, `MoreOperatorPlugins`,
  `MoreOperatorPlugins1`, `LogPlugins`) as concrete handler behaviours, and
  the scenarios of the demo script as lemmas.

Files and modules:

- `js_value.dfy`, module `JsValue`: the JavaScript values handlers take and
  return (`undefined`, `null`, booleans, integers, strings, callbacks) and
  JavaScript truthiness.
- `hooks.dfy`, module `Hooks`: the table as `map<string, seq<HandlerId>>`,
  its operations and their laws, and the table as `demo.js` builds it (a
  plain object literal; see Findings).
- `calculator.dfy`, module `Calculators`: the calculator as an immutable
  `(hooks, currentValue)` record, its operations as pure functions, and the
  laws of `press`'s loop.
- `plugins.dfy`, module `Plugins`: the demo plugins and scenario lemmas.

Modelling choices:

- Handlers are opaque identifiers (`HandlerId = nat`); an `Interp` gives each
  one's result for a list of arguments. `off`'s reference-equality test is
  equality of identifiers. A function returned by a `pressed` handler is a
  value `Fn(id)`; the environment `Env` gives its behaviour on
  `(currentValue, extraArg)`.
- Handlers are pure, so what a trigger leaves behind, besides its results,
  is the fact that it happened with certain arguments. Each calculator
  operation returns the calculator after it and the list of triggers it
  emitted (`Emission(event, args)`), in order.
- `press` throws a TypeError when a `pressed` handler returns a truthy value
  that is not a function (`callback(...)` on a non-function). The model
  returns `Thrown(step)`, where `step` holds the state and triggers left by
  the callbacks that ran before it, as in JavaScript, where those changes
  are not undone.
- `getCurrentValue()` is the `currentValue` field of the record.

## Model

| member | source | states |
|---|---|---|
| Hooks.On | demo.js:6-11 | the list for the event becomes the old list (or the empty one) with the handler appended; every other event keeps its list |
| Hooks.Dispatch | demo.js:16-21 | the loop yields one result per handler, result i being handler i applied to the arguments |
| Hooks.Trigger | demo.js:13-23 | one result per registered handler, in registration order, each that handler's result on the arguments; nothing when the event has no entry |
| Hooks.Without | demo.js:28 | the filtered list is a subsequence of the old one (order kept), holds no occurrence of the handler, and keeps every other handler as often as before |
| Hooks.Off | demo.js:25-30 | the event's list loses exactly the occurrences of the handler, the rest in order; no change when the event is absent; other events untouched |
| Hooks.Destroy | demo.js:32-34 | afterwards no event has any handler |
| Hooks.WithoutUnique | demo.js:28 | the three properties of the filter determine its result: any subsequence without the handler that keeps all other occurrences is the filter's result |
| Hooks.OffIdempotent | demo.js:25-30 | removing the same handler twice equals removing it once |
| Hooks.OffAfterOn | demo.js:6-30 | `off` after `on` of a handler not yet registered for that event restores every event's handler list |
| Hooks.TriggerAfterOn | demo.js:6-23 | `on(e, h)` adds exactly one call, of h, at the end of e's dispatch, and changes no other event's dispatch |
| Hooks.TriggerAfterOff | demo.js:13-30 | after `off(e, h)`, e's dispatch is that of the list without h, and every other event's dispatch is unchanged |
| Hooks.TriggerAfterDestroy | demo.js:13-34 | after `destroy`, every trigger returns the empty sequence |
| Hooks.RegisterAllHandlers | demo.js:6-11 | a sequence of `on` calls appends to each event exactly the handlers registered for it, in registration order |
| Hooks.TriggerAfterRegistrations | demo.js:6-23 | after any sequence of `on` calls on a fresh table, a trigger calls each handler registered for the event once, in registration order |
| Hooks.OnAsWritten | demo.js:3-11 | as written, `on` throws exactly for a never-registered name inherited from `Object.prototype`, and otherwise agrees with `On` |
| Hooks.TriggerAsWritten | demo.js:13-23 | as written, `trigger` throws exactly for a never-registered inherited name, and otherwise agrees with `Trigger` |
| Hooks.OffAsWritten | demo.js:25-30 | as written, `off` throws exactly for a never-registered inherited name, and otherwise agrees with `Off` |
| Hooks.InheritedNameThrows | demo.js:3-30 | on a fresh table, `on("constructor", h)`, `trigger("toString")` and `off("valueOf", h)` throw as written, whereas the intended table starts a list, returns nothing and does nothing for those names |
| Calculators.RegisterPluginsHandlers | demo.js:42 | `RegisterPlugins`, applying the plugins in list order, appends to each event the plugins' handlers for it, plugin by plugin, after those it had |
| Calculators.New | demo.js:38-43 | the value starts at the initial value and each event holds the handlers the plugins registered for it, in plugin order |
| Calculators.SomeFalsy | demo.js:49 | `some(_ => !_)` holds exactly when some result is falsy |
| Calculators.Vetoes | demo.js:49 | the veto test `result.length !== 0 && result.some(_ => !_)` holds exactly when some result is falsy (the length test adds nothing) |
| Calculators.VetoesIffNotPermits | demo.js:48-52 | the veto test on the `valueWillChanged` results holds exactly when not every handler accepts the value |
| Calculators.SetValue | demo.js:47-54 | the value becomes v exactly when every `valueWillChanged` handler accepts v (so always when none is registered) and is kept otherwise; the table never changes; `valueChanged` reports the value kept, not the one attempted |
| Calculators.Plus | demo.js:55-58 | announces `pressedPlus(current, n)`, then has the effect of `setValue(current + n)` under the same veto law, triggering `valueWillChanged(current + n)` and then `valueChanged` with the value kept |
| Calculators.Minus | demo.js:59-62 | announces `pressedMinus(current, n)`, then has the effect of `setValue(current - n)` under the same veto law, triggering `valueWillChanged(current - n)` and then `valueChanged` with the value kept |
| Calculators.MinusUndoesPlus | demo.js:55-62 | when neither change is vetoed, `minus(n)` after `plus(n)` gives back the original calculator |
| Calculators.Apply | demo.js:71-75 | the loop keeps the table, and throws exactly when some truthy callback is not a function |
| Calculators.Press | demo.js:64-76 | announces `pressed(name)` first, keeps the table, and throws exactly when some `pressed` handler returns a truthy non-function |
| Calculators.Truthies | demo.js:72 | the kept callbacks are the truthy ones, each as often as in the input, in input order |
| Calculators.ApplySkipsFalsy | demo.js:71-75 | falsy callbacks have no effect: dropping them beforehand changes neither the final state nor the emitted triggers |
| Calculators.ApplyAppend | demo.js:71-75 | each callback sees the state the previous ones left: running `a + b` is running `a`, then `b` from where `a` ended, unless `a` threw |
| Calculators.ApplyStep | demo.js:71-75 | one turn of the loop: a function callback's result r goes through the veto of `setValue` (kept exactly when every `valueWillChanged` handler accepts it, otherwise the old value stays), the turn triggers `valueWillChanged(r)` then `valueChanged(kept)`, and the loop goes on from the kept value |
| Calculators.ApplyThrowStep | demo.js:71-75 | a turn that reaches a truthy non-function throws at once with no further trigger and the state the turn started from; with `ApplyAppend`, a throw keeps the state and triggers of the earlier callbacks |
| Calculators.ApplyEmissions | demo.js:71-75 | a run without a throw emits exactly two triggers per truthy callback (their contents are those `ApplyStep` states) |
| Calculators.ApplyWithoutVeto | demo.js:47-75 | with no `valueWillChanged` handler, the loop ends at the left-to-right composition of the callbacks on the starting value |
| Plugins.HandlerResults | demo.js:80-123 | the plugin handlers: the limit check returns false exactly for a number above 2000 (numeric arguments only); `MoreOperatorPlugins` answers "squared" and "multiply" with their callbacks and any other name with `undefined`; `MoreOperatorPlugins1` answers only "squared"; the logging handlers return `undefined`; these pin `Plugins.Handler`, which `LimitPermits` and `SquaredCallbacks` use |
| Plugins.CallbackResults | demo.js:85-99 | the returned callbacks: both squaring callbacks give current times current, the multiply callback current times the extra argument; these pin `Plugins.Callback` |
| Plugins.AllPluginsHandlers | demo.js:115-129 | the demo's table gates changes with `LimitPlugins` only, and answers `pressed` with the two operator plugins, in order |
| Plugins.OperatorHandlers | demo.js:80-105 | the operator plugins alone register their `pressed` handlers in order and no gate |
| Plugins.LimitPermits | demo.js:115-125 | with `LimitPlugins` as the only gate, a change is accepted exactly when the new value is at most 2000 |
| Plugins.PlusWithoutPlugins | demo.js:38-58 | without plugins, `plus(10)` from 0 gives 10 |
| Plugins.LimitScenario | demo.js:128-133 | `plus(10); minus(5); plus(2000)` from 0 ends at 5, and the vetoed step reports 5 through `valueChanged` |
| Plugins.SquaredCallbacks | demo.js:80-105 | `pressed("squared")` yields the two plugins' squaring callbacks, in registration order |
| Plugins.PressSquaredTwice | demo.js:64-105 | with both operator plugins and no gate, `press("squared")` squares the value twice in sequence |
| Plugins.SquaredTwice | demo.js:64-105 | from a fresh calculator at v with both operator plugins, `press("squared")` yields v to the fourth |
| Plugins.SquaredOnce | demo.js:94-105 | with one squaring plugin, `press("squared")` from 5 gives 25 |
| Plugins.PressSquaredGated | demo.js:64-125 | with the gate, squaring twice completes when both squares stay within 2000 |
| Plugins.PressMultiplyGated | demo.js:64-125 | with the gate, `press("multiply", x)` tries one multiplication, the second plugin's `undefined` being skipped: the product is kept when it is at most 2000, and the old value stays otherwise |
| Plugins.PressSquaredVetoed | demo.js:47-125 | with the gate, when the square exceeds 2000 both squaring callbacks are vetoed and `press("squared")` leaves the value unchanged |
| Plugins.DemoScript | demo.js:127-135 | the demo script reaches 10, 5, 5, then 625 after `press("squared")` and 1250 after `press("multiply", 2)` |

## Left out

- Console output of `LogPlugins` and `LimitPlugins`: it is output only; the handlers' return values (`undefined`, and the veto's boolean) are modelled.
- JavaScript numbers: values are unbounded integers, so floating-point rounding, `NaN` and infinities are not modelled, nor `+` on non-numbers.
- Calculators.Press: its extra argument is an integer; calling `press(name)` without it passes `undefined`, which only the multiply callback reads (giving `NaN`).
- Exceptions thrown by handlers or callbacks themselves: handlers are total pure functions here. The one TypeError the calculator itself causes, calling a truthy non-function, is modelled.
- A handler that calls `on`/`off` on the table while a trigger of the same event is iterating it: handlers are pure and cannot reach the table.
- The duck-typed `plugin.apply(hooks)` call: a plugin is the list of `on` calls its `apply` makes.
- Plugins.Handler: the limit check is stated for numeric arguments only; JavaScript's `2000 < newVal` would also coerce a string such as "3000", but `setValue` only ever passes numbers, so that case cannot arise.
- ApplyEmissions: states only how many triggers a run emits; what each callback's pair of triggers carries is stated per turn by `ApplyStep`.
- Calculators.New: the defaults of the options object (initial value 0, no plugins) are passed explicitly.

## Findings

| source | as written | input that shows it | evidently intended | confidence | as-written member | corrected member |
|---|---|---|---|---|---|---|
| demo.js:3-23 | the listener table is a plain object literal, so `this.listener[name]` for a never-registered name such as `toString` is the inherited function, truthy but not an array, and `trigger` iterates it with `for ... of` | `new Hooks().trigger("toString")` throws a TypeError | an unregistered name has no handlers and `trigger` returns the empty sequence | high, not executed | Hooks.TriggerAsWritten | Hooks.Trigger |
| demo.js:3-11 | `on` tests `!this.listener[name]`, which is false for an inherited name, so no list is created and `.push` is called on a function | `new Hooks().on("constructor", h)` throws a TypeError | the first `on` for any name starts its list | high, not executed | Hooks.OnAsWritten | Hooks.On |
| demo.js:25-30 | `off` finds the inherited function truthy and calls `.filter` on it | `new Hooks().off("valueOf", h)` throws a TypeError | `off` on an unregistered name does nothing | high, not executed | Hooks.OffAsWritten | Hooks.Off |

The counterexample for all three rows is `Hooks.InheritedNameThrows`; the
rest of the model uses the corrected `On`, `Trigger` and `Off`. The
calculator itself only uses the names `valueWillChanged`, `valueChanged`,
`pressedPlus`, `pressedMinus` and `pressed`, none of them inherited, so its
behaviour is not affected.

=== FILE: calculator.dfy ===
/**
 * The `Calculator`: one integer `currentValue` and the event table its
 * plugins fill at construction. Every change goes through `SetValue`,
 * which any `valueWillChanged` handler can veto by returning a falsy
 * value, and which always reports the value it settled on through
 * `valueChanged`.
 *
 * Handlers are pure, so the only trace a trigger leaves besides its
 * results is the fact that it happened: each operation returns the
 * calculator after it together with the triggers it emitted, in order.
 */
module Calculators {
  import opened JsValue
  import opened Hooks

  /** The behaviour of the registered handlers and of the callbacks that
      `pressed` handlers hand back; a callback receives the current value
      and the extra argument of `press`. */
  datatype Env = Env(handler: Interp, callback: CallbackId -> (int, int) -> int)

  /** One `trigger(event, ...args)` call. */
  datatype Emission = Emission(event: string, args: seq<Value>)

  /** A unit of extension: the `on` calls its `apply(hooks)` makes. */
  datatype Plugin = Plugin(registrations: seq<Registration>)

  datatype Calculator = Calculator(hooks: Table, currentValue: int)

  /** The calculator after an operation and the triggers it emitted. */
  datatype Step = Step(after: Calculator, emitted: seq<Emission>)

  /** How `press` ends: normally, or with the TypeError thrown when a
      `pressed` handler returned a truthy value that is not a function; in
      both cases `step` holds what the callbacks before it had done. */
  datatype Outcome = Returned(step: Step) | Thrown(step: Step)
  {
    /** The same outcome with `es` emitted before it. */
    function Prepend(es: seq<Emission>): (r: Outcome)
      ensures r.Returned? == Returned?
      ensures r.step.after == step.after
      ensures r.step.emitted == es + step.emitted
    {
      match this
      case Returned(s) => Returned(Step(s.after, es + s.emitted))
      case Thrown(s) => Thrown(Step(s.after, es + s.emitted))
    }
  }

  const WillChange := "valueWillChanged"
  const Changed := "valueChanged"
  const PressedPlus := "pressedPlus"
  const PressedMinus := "pressedMinus"
  const Pressed := "pressed"

  // ---------------------------------------------------------------------
  // Construction
  // ---------------------------------------------------------------------

  /** The handlers the plugins register under `e`, plugin by plugin and,
      within a plugin, in the order of its `on` calls. */
  function PluginHandlers(plugins: seq<Plugin>, e: string): seq<HandlerId> {
    if |plugins| == 0 then []
    else HandlersFor(plugins[0].registrations, e) + PluginHandlers(plugins[1..], e)
  }

  /** `plugins.forEach(plugin => plugin.apply(hooks))`: apply each plugin
      in list order. */
  function RegisterPlugins(t: Table, plugins: seq<Plugin>): Table
    decreases |plugins|
  {
    if |plugins| == 0 then t
    else RegisterPlugins(RegisterAll(t, plugins[0].registrations), plugins[1..])
  }

  /** Applying the plugins appends to every event the plugins' handlers
      for it, plugin by plugin, after those it had. */
  lemma {:induction false} RegisterPluginsHandlers(t: Table, plugins: seq<Plugin>, e: string)
    ensures Handlers(RegisterPlugins(t, plugins), e) == Handlers(t, e) + PluginHandlers(plugins, e)
    decreases |plugins|
  {
    if |plugins| > 0 {
      var t' := RegisterAll(t, plugins[0].registrations);
      RegisterAllHandlers(t, plugins[0].registrations, e);
      RegisterPluginsHandlers(t', plugins[1..], e);
      assert Handlers(t', e) + PluginHandlers(plugins[1..], e)
          == Handlers(t, e) + (HandlersFor(plugins[0].registrations, e) + PluginHandlers(plugins[1..], e));
    }
  }

  lemma NewHandlers(plugins: seq<Plugin>)
    ensures forall e :: Handlers(RegisterPlugins(Empty(), plugins), e) == PluginHandlers(plugins, e)
  {
    forall e ensures Handlers(RegisterPlugins(Empty(), plugins), e) == PluginHandlers(plugins, e) {
      RegisterPluginsHandlers(Empty(), plugins, e);
      assert Handlers(Empty(), e) == [];
    }
  }

  lemma PluginHandlersCons(p: Plugin, ps: seq<Plugin>, e: string)
    ensures PluginHandlers([p] + ps, e) == HandlersFor(p.registrations, e) + PluginHandlers(ps, e)
  {
    assert ([p] + ps)[1..] == ps;
  }

  /** `new Calculator({initialValue, plugins})`: the value starts at
      `initialValue` and every event holds the handlers the plugins
      registered for it, in plugin order. */
  function New(initialValue: int, plugins: seq<Plugin>): (c: Calculator)
    ensures c.currentValue == initialValue
    ensures forall e :: Handlers(c.hooks, e) == PluginHandlers(plugins, e)
  {
    NewHandlers(plugins);
    Calculator(RegisterPlugins(Empty(), plugins), initialValue)
  }

  // ---------------------------------------------------------------------
  // setValue, plus, minus
  // ---------------------------------------------------------------------

  /** Every `valueWillChanged` handler accepts `v` (vacuously so when none
      is registered). */
  predicate Permits(env: Env, t: Table, v: int) {
    var hs := Handlers(t, WillChange);
    forall i :: 0 <= i < |hs| ==> Truthy(env.handler(hs[i])([Num(v)]))
  }

  /** `results.some(_ => !_)`. */
  function SomeFalsy(results: seq<Value>): (r: bool)
    ensures r <==> exists i :: 0 <= i < |results| && !Truthy(results[i])
  {
    if |results| == 0 then false
    else !Truthy(results[0]) || SomeFalsy(results[1..])
  }

  /** The veto test of `setValue`: some result, and a falsy one among them. */
  function Vetoes(results: seq<Value>): (r: bool)
    ensures r <==> exists i :: 0 <= i < |results| && !Truthy(results[i])
  {
    |results| != 0 && SomeFalsy(results)
  }

  /** The veto test on the `valueWillChanged` results fails exactly when
      some handler rejects the value: it is the negation of `Permits`. */
  lemma VetoesIffNotPermits(env: Env, t: Table, v: int)
    ensures Vetoes(Trigger(env.handler, t, WillChange, [Num(v)])) <==> !Permits(env, t, v)
  {
  }

  /** `setValue(v)`: the change happens exactly when every
      `valueWillChanged` handler accepts `v`; the table is untouched; and
      `valueChanged` reports the value kept, which on a veto is the old one. */
  function SetValue(env: Env, c: Calculator, v: int): (r: Step)
    ensures r.after.hooks == c.hooks
    ensures Permits(env, c.hooks, v) ==> r.after.currentValue == v
    ensures !Permits(env, c.hooks, v) ==> r.after.currentValue == c.currentValue
    ensures r.emitted == [Emission(WillChange, [Num(v)]), Emission(Changed, [Num(r.after.currentValue)])]
  {
    var results := Trigger(env.handler, c.hooks, WillChange, [Num(v)]);
    var next := if Vetoes(results) then c.currentValue else v;
    Step(Calculator(c.hooks, next), [Emission(WillChange, [Num(v)]), Emission(Changed, [Num(next)])])
  }

  /** `plus(n)`: announces `pressedPlus(current, n)`, then behaves as
      `setValue(current + n)`. */
  function Plus(env: Env, c: Calculator, n: int): (r: Step)
    ensures r.after.hooks == c.hooks
    ensures r.after.currentValue
         == if Permits(env, c.hooks, c.currentValue + n) then c.currentValue + n else c.currentValue
    ensures r.after == SetValue(env, c, c.currentValue + n).after
    ensures |r.emitted| == 3 && r.emitted[0] == Emission(PressedPlus, [Num(c.currentValue), Num(n)])
    ensures r.emitted[1] == Emission(WillChange, [Num(c.currentValue + n)])
    ensures r.emitted[2] == Emission(Changed, [Num(r.after.currentValue)])
  {
    var s := SetValue(env, c, c.currentValue + n);
    Step(s.after, [Emission(PressedPlus, [Num(c.currentValue), Num(n)])] + s.emitted)
  }

  /** `minus(n)`: announces `pressedMinus(current, n)`, then behaves as
      `setValue(current - n)`. */
  function Minus(env: Env, c: Calculator, n: int): (r: Step)
    ensures r.after.hooks == c.hooks
    ensures r.after.currentValue
         == if Permits(env, c.hooks, c.currentValue - n) then c.currentValue - n else c.currentValue
    ensures r.after == SetValue(env, c, c.currentValue - n).after
    ensures |r.emitted| == 3 && r.emitted[0] == Emission(PressedMinus, [Num(c.currentValue), Num(n)])
    ensures r.emitted[1] == Emission(WillChange, [Num(c.currentValue - n)])
    ensures r.emitted[2] == Emission(Changed, [Num(r.after.currentValue)])
  {
    var s := SetValue(env, c, c.currentValue - n);
    Step(s.after, [Emission(PressedMinus, [Num(c.currentValue), Num(n)])] + s.emitted)
  }

  /** `minus(n)` undoes `plus(n)` when neither change is vetoed. */
  lemma MinusUndoesPlus(env: Env, c: Calculator, n: int)
    requires Permits(env, c.hooks, c.currentValue + n)
    requires Permits(env, c.hooks, c.currentValue)
    ensures Minus(env, Plus(env, c, n).after, n).after == c
  {
  }

  // ---------------------------------------------------------------------
  // press
  // ---------------------------------------------------------------------

  /** Some callback would be called although it is not a function. */
  predicate HasNonCallable(cbs: seq<Value>) {
    exists i :: 0 <= i < |cbs| && Truthy(cbs[i]) && !cbs[i].Fn?
  }

  /** The loop of `press` over the `pressed` results: falsy ones are
      skipped; each other one is called on the value the previous calls
      left, and its result goes through `setValue`. */
  function Apply(env: Env, c: Calculator, cbs: seq<Value>, x: int): (r: Outcome)
    ensures r.step.after.hooks == c.hooks
    ensures r.Thrown? <==> HasNonCallable(cbs)
    decreases |cbs|
  {
    if |cbs| == 0 then Returned(Step(c, []))
    else if !Truthy(cbs[0]) then
      assert HasNonCallable(cbs) <==> HasNonCallable(cbs[1..]) by {
        assert forall i :: 0 < i < |cbs| ==> cbs[i] == cbs[1..][i - 1];
      }
      Apply(env, c, cbs[1..], x)
    else if !cbs[0].Fn? then Thrown(Step(c, []))
    else
      assert HasNonCallable(cbs) <==> HasNonCallable(cbs[1..]) by {
        assert forall i :: 0 < i < |cbs| ==> cbs[i] == cbs[1..][i - 1];
      }
      var s := SetValue(env, c, env.callback(cbs[0].callback)(c.currentValue, x));
      Apply(env, s.after, cbs[1..], x).Prepend(s.emitted)
  }

  /** `press(name, x)`: announces `pressed(name)`, then runs every callback
      the handlers returned through `setValue`; it throws exactly when a
      handler returned a truthy value that is not a function. */
  function Press(env: Env, c: Calculator, name: string, x: int): (r: Outcome)
    ensures r.step.after.hooks == c.hooks
    ensures |r.step.emitted| > 0 && r.step.emitted[0] == Emission(Pressed, [Str(name)])
    ensures r.Thrown? <==> exists i :: 0 <= i < |Handlers(c.hooks, Pressed)|
                                  && var v := env.handler(Handlers(c.hooks, Pressed)[i])([Str(name)]);
                                     Truthy(v) && !v.Fn?
  {
    var cbs := Trigger(env.handler, c.hooks, Pressed, [Str(name)]);
    Apply(env, c, cbs, x).Prepend([Emission(Pressed, [Str(name)])])
  }

  /** The truthy results of `pressed` handlers, in order. */
  function Truthies(cbs: seq<Value>): (r: seq<Value>)
    ensures forall i :: 0 <= i < |r| ==> Truthy(r[i])
    ensures Subsequence(r, cbs)
    ensures forall v :: Truthy(v) ==> multiset(r)[v] == multiset(cbs)[v]
  {
    if |cbs| == 0 then []
    else
      assert cbs == [cbs[0]] + cbs[1..];
      var rest := Truthies(cbs[1..]);
      if Truthy(cbs[0]) then
        assert ([cbs[0]] + rest)[1..] == rest;
        [cbs[0]] + rest
      else
        assert Subsequence(rest, cbs) by {
          if |rest| > 0 {
            assert rest[0] != cbs[0];
          }
        }
        rest
  }

  /** Falsy callbacks have no effect at all: dropping them beforehand
      changes neither the final state nor the emitted triggers. */
  lemma {:induction false} ApplySkipsFalsy(env: Env, c: Calculator, cbs: seq<Value>, x: int)
    ensures Apply(env, c, cbs, x) == Apply(env, c, Truthies(cbs), x)
    decreases |cbs|
  {
    if |cbs| > 0 {
      if Truthy(cbs[0]) {
        var t := Truthies(cbs);
        assert t[0] == cbs[0] && t[1..] == Truthies(cbs[1..]);
        if cbs[0].Fn? {
          var s := SetValue(env, c, env.callback(cbs[0].callback)(c.currentValue, x));
          ApplySkipsFalsy(env, s.after, cbs[1..], x);
        }
      } else {
        ApplySkipsFalsy(env, c, cbs[1..], x);
      }
    }
  }

  /** Running the callbacks of `a + b` is running those of `a`, then, if
      none of them threw, those of `b` from the state `a` left. */
  lemma {:induction false} ApplyAppend(env: Env, c: Calculator, a: seq<Value>, b: seq<Value>, x: int)
    ensures (var ra := Apply(env, c, a, x);
             Apply(env, c, a + b, x)
             == if ra.Thrown? then ra else Apply(env, ra.step.after, b, x).Prepend(ra.step.emitted))
    decreases |a|
  {
    if |a| == 0 {
      assert a + b == b;
      assert [] + Apply(env, c, b, x).step.emitted == Apply(env, c, b, x).step.emitted;
    } else {
      assert (a + b)[0] == a[0] && (a + b)[1..] == a[1..] + b;
      if Truthy(a[0]) && a[0].Fn? {
        var s := SetValue(env, c, env.callback(a[0].callback)(c.currentValue, x));
        ApplyAppend(env, s.after, a[1..], b, x);
        var ra' := Apply(env, s.after, a[1..], x);
        if !ra'.Thrown? {
          var rb := Apply(env, ra'.step.after, b, x);
          assert s.emitted + (ra'.step.emitted + rb.step.emitted)
              == (s.emitted + ra'.step.emitted) + rb.step.emitted;
        }
      } else if !Truthy(a[0]) {
        ApplyAppend(env, c, a[1..], b, x);
      }
    }
  }

  /** One turn of `press`'s loop: a function callback's result goes through
      the veto of `setValue`. The loop goes on from the value kept, which is
      the result when every `valueWillChanged` handler accepts it and the old
      value otherwise, after triggering `valueWillChanged(result)` and then
      `valueChanged(kept)`. */
  lemma ApplyStep(env: Env, c: Calculator, cb: Value, rest: seq<Value>, x: int)
    requires cb.Fn?
    ensures var r := env.callback(cb.callback)(c.currentValue, x);
            var kept := if Permits(env, c.hooks, r) then r else c.currentValue;
            Apply(env, c, [cb] + rest, x)
            == Apply(env, Calculator(c.hooks, kept), rest, x)
                 .Prepend([Emission(WillChange, [Num(r)]), Emission(Changed, [Num(kept)])])
  {
    assert ([cb] + rest)[0] == cb && ([cb] + rest)[1..] == rest;
    var r := env.callback(cb.callback)(c.currentValue, x);
    var s := SetValue(env, c, r);
    assert s.after == Calculator(c.hooks, if Permits(env, c.hooks, r) then r else c.currentValue);
  }

  /** A turn that reaches a truthy value that is not a function throws at
      once: nothing more is triggered, and the state is the one this turn
      started from. With `ApplyAppend`, a throw therefore keeps what the
      earlier callbacks did, as JavaScript does not undo it. */
  lemma ApplyThrowStep(env: Env, c: Calculator, cb: Value, rest: seq<Value>, x: int)
    requires Truthy(cb) && !cb.Fn?
    ensures Apply(env, c, [cb] + rest, x) == Thrown(Step(c, []))
  {
    assert ([cb] + rest)[0] == cb;
  }

  /** Each callback that is called triggers `valueWillChanged` and
      `valueChanged` once: a run without a throw emits two triggers per
      truthy result. */
  lemma {:induction false} ApplyEmissions(env: Env, c: Calculator, cbs: seq<Value>, x: int)
    requires !HasNonCallable(cbs)
    ensures |Apply(env, c, cbs, x).step.emitted| == 2 * |Truthies(cbs)|
    decreases |cbs|
  {
    if |cbs| > 0 {
      assert !HasNonCallable(cbs[1..]) by {
        assert forall i :: 0 <= i < |cbs[1..]| ==> cbs[1..][i] == cbs[i + 1];
      }
      if Truthy(cbs[0]) {
        var s := SetValue(env, c, env.callback(cbs[0].callback)(c.currentValue, x));
        ApplyEmissions(env, s.after, cbs[1..], x);
      } else {
        ApplyEmissions(env, c, cbs[1..], x);
      }
    }
  }

  /** The value the callbacks compute when nothing vetoes: each function
      result is applied, left to right, to the value the previous one left. */
  function Chain(callback: CallbackId -> (int, int) -> int, cbs: seq<Value>, v: int, x: int): int
    decreases |cbs|
  {
    if |cbs| == 0 then v
    else Chain(callback, cbs[1..], if cbs[0].Fn? then callback(cbs[0].callback)(v, x) else v, x)
  }

  /** With no `valueWillChanged` handler, `press`'s loop ends where the
      plain left-to-right composition of the callbacks ends. */
  lemma {:induction false} ApplyWithoutVeto(env: Env, c: Calculator, cbs: seq<Value>, x: int)
    requires Handlers(c.hooks, WillChange) == []
    requires !HasNonCallable(cbs)
    ensures Apply(env, c, cbs, x).Returned?
    ensures Apply(env, c, cbs, x).step.after.currentValue == Chain(env.callback, cbs, c.currentValue, x)
    decreases |cbs|
  {
    if |cbs| > 0 {
      assert !HasNonCallable(cbs[1..]) by {
        assert forall i :: 0 <= i < |cbs[1..]| ==> cbs[1..][i] == cbs[i + 1];
      }
      if Truthy(cbs[0]) {
        var s := SetValue(env, c, env.callback(cbs[0].callback)(c.currentValue, x));
        ApplyWithoutVeto(env, s.after, cbs[1..], x);
      } else {
        assert !cbs[0].Fn?;
        ApplyWithoutVeto(env, c, cbs[1..], x);
      }
    }
  }
}

=== FILE: hooks.dfy ===
/**
 * The `Hooks` event table: a map from event name to the ordered list of
 * handlers registered under it. Registration appends, removal filters by
 * identity, dispatch calls every handler in registration order and
 * collects the results.
 *
 * Handlers are opaque identifiers; an `Interp` gives each one's behaviour
 * as a pure function of the trigger's arguments, so the reference
 * equality used by `off` becomes equality of identifiers.
 */
module Hooks {
  import opened JsValue

  type HandlerId = nat

  /** The behaviour of every handler: its result for a list of arguments. */
  type Interp = HandlerId -> seq<Value> -> Value

  type Table = map<string, seq<HandlerId>>

  /** One call of `on(event, handler)`. */
  datatype Registration = Registration(event: string, handler: HandlerId)

  /** The table a fresh `Hooks` object starts with. */
  function Empty(): Table {
    map[]
  }

  /** The handlers registered under `e`; an absent entry has none. */
  function Handlers(t: Table, e: string): seq<HandlerId> {
    if e in t then t[e] else []
  }

  /** `a` is `b` with zero or more elements deleted, the rest in order. */
  predicate Subsequence<T(==)>(a: seq<T>, b: seq<T>)
    decreases |b|
  {
    if |a| == 0 then true
    else if |b| == 0 then false
    else (a[0] == b[0] && Subsequence(a[1..], b[1..])) || Subsequence(a, b[1..])
  }

  /** `on(e, h)`: append `h` to the list for `e`, creating the list if absent. */
  function On(t: Table, e: string, h: HandlerId): (r: Table)
    ensures r.Keys == t.Keys + {e}
    ensures Handlers(r, e) == Handlers(t, e) + [h]
    ensures forall e' :: e' != e && e' in t ==> r[e'] == t[e']
  {
    t[e := Handlers(t, e) + [h]]
  }

  /** Call every handler of `hs`, in order, on `args`. */
  function Dispatch(run: Interp, hs: seq<HandlerId>, args: seq<Value>): (r: seq<Value>)
    ensures |r| == |hs|
    ensures forall i :: 0 <= i < |hs| ==> r[i] == run(hs[i])(args)
  {
    if |hs| == 0 then [] else [run(hs[0])(args)] + Dispatch(run, hs[1..], args)
  }

  /** `trigger(e, ...args)`: the results of the handlers of `e`, one per
      registration, in registration order; none when `e` has no entry. */
  function Trigger(run: Interp, t: Table, e: string, args: seq<Value>): (r: seq<Value>)
    ensures |r| == |Handlers(t, e)|
    ensures forall i :: 0 <= i < |r| ==> r[i] == run(Handlers(t, e)[i])(args)
    ensures e !in t ==> r == []
  {
    Dispatch(run, Handlers(t, e), args)
  }

  /** `hs.filter(cb => cb !== h)`. */
  function Without(hs: seq<HandlerId>, h: HandlerId): (r: seq<HandlerId>)
    ensures Subsequence(r, hs)
    ensures h !in r
    ensures multiset(r) == multiset(hs)[h := 0]
  {
    if |hs| == 0 then []
    else
      assert hs == [hs[0]] + hs[1..];
      if hs[0] == h then Without(hs[1..], h)
      else
        var rest := Without(hs[1..], h);
        assert ([hs[0]] + rest)[1..] == rest;
        [hs[0]] + rest
  }

  /** `off(e, h)`: drop every occurrence of `h` from the list of `e`,
      keeping the others in order; nothing happens when `e` has no entry. */
  function Off(t: Table, e: string, h: HandlerId): (r: Table)
    ensures r.Keys == t.Keys
    ensures e !in t ==> r == t
    ensures e in t ==> Subsequence(r[e], t[e]) && h !in r[e]
    ensures e in t ==> multiset(r[e]) == multiset(t[e])[h := 0]
    ensures forall e' :: e' != e && e' in t ==> r[e'] == t[e']
  {
    if e in t then t[e := Without(t[e], h)] else t
  }

  /** `destroy()`: the table is replaced by an empty one, whatever `t` held. */
  function Destroy(t: Table): (r: Table)
    ensures forall e :: Handlers(r, e) == []
  {
    Empty()
  }

  /** Apply the registrations in order, as a sequence of `on` calls. */
  function RegisterAll(t: Table, regs: seq<Registration>): Table
    decreases |regs|
  {
    if |regs| == 0 then t
    else RegisterAll(On(t, regs[0].event, regs[0].handler), regs[1..])
  }

  /** The handlers of `regs` registered under `e`, in registration order. */
  function HandlersFor(regs: seq<Registration>, e: string): seq<HandlerId> {
    if |regs| == 0 then []
    else (if regs[0].event == e then [regs[0].handler] else []) + HandlersFor(regs[1..], e)
  }

  lemma HandlersForAbsent(regs: seq<Registration>, e: string)
    requires forall i :: 0 <= i < |regs| ==> regs[i].event != e
    ensures HandlersFor(regs, e) == []
  {
  }

  lemma HandlersForSingle(r: Registration, e: string)
    ensures HandlersFor([r], e) == if r.event == e then [r.handler] else []
  {
    assert [r][1..] == [];
  }

  // ---------------------------------------------------------------------
  // Laws of the table
  // ---------------------------------------------------------------------

  /** A sequence of `on` calls appends, per event, exactly the handlers
      registered for it, in the order they were registered. */
  lemma {:induction false} RegisterAllHandlers(t: Table, regs: seq<Registration>, e: string)
    ensures Handlers(RegisterAll(t, regs), e) == Handlers(t, e) + HandlersFor(regs, e)
    decreases |regs|
  {
    if |regs| > 0 {
      var t' := On(t, regs[0].event, regs[0].handler);
      RegisterAllHandlers(t', regs[1..], e);
      if regs[0].event == e {
        assert Handlers(t', e) + HandlersFor(regs[1..], e)
            == Handlers(t, e) + ([regs[0].handler] + HandlersFor(regs[1..], e));
      } else {
        assert Handlers(t', e) == Handlers(t, e);
        assert HandlersFor(regs, e) == HandlersFor(regs[1..], e);
      }
    }
  }

  /** After any sequence of `on` calls on a fresh table, `trigger(e)` calls
      each handler registered for `e` exactly once, in registration order. */
  lemma TriggerAfterRegistrations(run: Interp, regs: seq<Registration>, e: string, args: seq<Value>)
    ensures var hs := HandlersFor(regs, e);
            var r := Trigger(run, RegisterAll(Empty(), regs), e, args);
            |r| == |hs| && forall i :: 0 <= i < |hs| ==> r[i] == run(hs[i])(args)
  {
    RegisterAllHandlers(Empty(), regs, e);
    assert Handlers(Empty(), e) + HandlersFor(regs, e) == HandlersFor(regs, e);
  }

  /** `on` adds exactly one call at the end of the dispatch of its event
      and leaves the dispatch of every other event as it was. */
  lemma TriggerAfterOn(run: Interp, t: Table, e: string, h: HandlerId, e': string, args: seq<Value>)
    ensures Trigger(run, On(t, e, h), e', args)
         == if e' == e then Trigger(run, t, e, args) + [run(h)(args)] else Trigger(run, t, e', args)
  {
    if e' == e {
      var r := Trigger(run, On(t, e, h), e, args);
      var s := Trigger(run, t, e, args) + [run(h)(args)];
      assert |r| == |s|;
      forall i | 0 <= i < |r| ensures r[i] == s[i] {
        assert Handlers(On(t, e, h), e)[i] == (Handlers(t, e) + [h])[i];
      }
    } else {
      assert Handlers(On(t, e, h), e') == Handlers(t, e');
    }
  }

  /** The result of `off` is determined by its three properties: the only
      subsequence of `hs` that omits `h` and keeps every other element as
      often as `hs` has it is `Without(hs, h)`. */
  lemma {:induction false} WithoutUnique(r: seq<HandlerId>, hs: seq<HandlerId>, h: HandlerId)
    requires Subsequence(r, hs)
    requires h !in r
    requires multiset(r) == multiset(hs)[h := 0]
    ensures r == Without(hs, h)
    decreases |hs|
  {
    if |hs| > 0 {
      var rest: seq<HandlerId> := hs[1..];
      assert hs == [hs[0]] + rest;
      if hs[0] == h {
        SkipsRemoved(r, hs, h);
        assert multiset(hs)[h := 0] == multiset(rest)[h := 0];
        WithoutUnique(r, rest, h);
      } else {
        KeepsHead(r, hs, h);
        WithoutUnique(r[1..], rest, h);
      }
    }
  }

  /** A subsequence that omits `h` skips a leading `h` of its source. */
  lemma SkipsRemoved(r: seq<HandlerId>, hs: seq<HandlerId>, h: HandlerId)
    requires |hs| > 0 && hs[0] == h
    requires Subsequence(r, hs)
    requires h !in r
    ensures Subsequence(r, hs[1..])
  {
    if |r| > 0 {
      assert r[0] in r;
    }
  }

  /** A subsequence that keeps every occurrence of the head of its source
      must start with it. */
  lemma KeepsHead(r: seq<HandlerId>, hs: seq<HandlerId>, h: HandlerId)
    requires |hs| > 0 && hs[0] != h
    requires Subsequence(r, hs)
    requires h !in r
    requires multiset(r) == multiset(hs)[h := 0]
    ensures |r| > 0 && r[0] == hs[0] && Subsequence(r[1..], hs[1..])
    ensures h !in r[1..]
    ensures multiset(r[1..]) == multiset(hs[1..])[h := 0]
  {
    var x: HandlerId, rest: seq<HandlerId> := hs[0], hs[1..];
    assert hs == [x] + rest;
    assert multiset(r)[x] == multiset(rest)[x] + 1;
    assert Subsequence(r, rest) ==> multiset(r)[x] <= multiset(rest)[x] by {
      if Subsequence(r, rest) {
        SubsequenceMultiset(r, rest);
      }
    }
    assert |r| > 0 && r[0] == x;
    TailCounts(r, hs, h);
  }

  /** Dropping a common head that is not `h` from both sides of the
      counting equation keeps it. */
  lemma TailCounts(r: seq<HandlerId>, hs: seq<HandlerId>, h: HandlerId)
    requires |r| > 0 && |hs| > 0 && r[0] == hs[0] && hs[0] != h
    requires h !in r
    requires multiset(r) == multiset(hs)[h := 0]
    ensures h !in r[1..]
    ensures multiset(r[1..]) == multiset(hs[1..])[h := 0]
  {
    assert r == [r[0]] + r[1..];
    assert hs == [hs[0]] + hs[1..];
    var a, b := multiset(r[1..]), multiset(hs[1..])[h := 0];
    assert multiset(r) == multiset{r[0]} + a;
    assert multiset(hs)[h := 0] == multiset{hs[0]} + b;
    forall y ensures a[y] == b[y] {
      assert (multiset{r[0]} + a)[y] == (multiset{r[0]} + b)[y];
    }
  }

  /** A subsequence never holds an element more often than its source. */
  lemma {:induction false} SubsequenceMultiset<T>(a: seq<T>, b: seq<T>)
    requires Subsequence(a, b)
    ensures multiset(a) <= multiset(b)
    decreases |b|
  {
    if |a| > 0 {
      assert b == [b[0]] + b[1..];
      if a[0] == b[0] && Subsequence(a[1..], b[1..]) {
        SubsequenceMultiset(a[1..], b[1..]);
        assert a == [a[0]] + a[1..];
      } else {
        SubsequenceMultiset(a, b[1..]);
      }
    }
  }

  /** Filtering out a handler that is not there changes nothing. */
  lemma {:induction false} WithoutAbsent(hs: seq<HandlerId>, h: HandlerId)
    requires h !in hs
    ensures Without(hs, h) == hs
  {
    if |hs| > 0 {
      WithoutAbsent(hs[1..], h);
      assert hs == [hs[0]] + hs[1..];
    }
  }

  /** Filtering distributes over concatenation. */
  lemma {:induction false} WithoutAppend(a: seq<HandlerId>, b: seq<HandlerId>, h: HandlerId)
    ensures Without(a + b, h) == Without(a, h) + Without(b, h)
  {
    if |a| > 0 {
      assert (a + b)[1..] == a[1..] + b;
      WithoutAppend(a[1..], b, h);
    } else {
      assert a + b == b;
    }
  }

  /** `off` is idempotent. */
  lemma OffIdempotent(t: Table, e: string, h: HandlerId)
    ensures Off(Off(t, e, h), e, h) == Off(t, e, h)
  {
    if e in t {
      WithoutAbsent(Without(t[e], h), h);
    }
  }

  /** `off` undoes an `on` of a handler that was not yet registered for the
      event: every event keeps the handlers it had before. */
  lemma OffAfterOn(t: Table, e: string, h: HandlerId)
    requires h !in Handlers(t, e)
    ensures Handlers(Off(On(t, e, h), e, h), e) == Handlers(t, e)
    ensures forall e' :: e' != e ==> Handlers(Off(On(t, e, h), e, h), e') == Handlers(t, e')
  {
    WithoutAppend(Handlers(t, e), [h], h);
    WithoutAbsent(Handlers(t, e), h);
    assert Without([h], h) == [];
  }

  /** `off` removes the calls of `h` from the dispatch of its event, and
      only those: the results are those of the remaining handlers. */
  lemma TriggerAfterOff(run: Interp, t: Table, e: string, h: HandlerId, args: seq<Value>)
    ensures Trigger(run, Off(t, e, h), e, args) == Dispatch(run, Without(Handlers(t, e), h), args)
    ensures forall e' :: e' != e ==> Trigger(run, Off(t, e, h), e', args) == Trigger(run, t, e', args)
  {
    if e !in t {
      assert Without([], h) == [];
    }
    forall e' | e' != e
      ensures Trigger(run, Off(t, e, h), e', args) == Trigger(run, t, e', args)
    {
      assert Handlers(Off(t, e, h), e') == Handlers(t, e');
    }
  }

  /** After `destroy`, every trigger returns nothing. */
  lemma TriggerAfterDestroy(run: Interp, t: Table, e: string, args: seq<Value>)
    ensures Trigger(run, Destroy(t), e, args) == []
  {
  }

  // ---------------------------------------------------------------------
  // The table as demo.js builds it: a plain object literal
  // ---------------------------------------------------------------------

  /** The property names a JavaScript object literal inherits from
      `Object.prototype`. Reading one of them from the listener object
      yields a function (or, for `__proto__`, the prototype object) rather
      than `undefined`, so the "no entry" tests of on/trigger/off see a
      truthy value that is not an array. */
  const InheritedNames: set<string> := {
    "constructor", "toString", "toLocaleString", "valueOf",
    "hasOwnProperty", "isPrototypeOf", "propertyIsEnumerable",
    "__proto__", "__defineGetter__", "__defineSetter__",
    "__lookupGetter__", "__lookupSetter__"
  }

  /** The outcome of a JavaScript call that may throw a TypeError. */
  datatype Completion<T> = Normal(value: T) | TypeError

  /** An inherited name that was never registered reads as a non-array. */
  predicate ReadsInherited(t: Table, e: string) {
    e !in t && e in InheritedNames
  }

  /** `on` as written: for an unregistered inherited name, the listener
      lookup is truthy, so the list is not created and `.push` is called on
      a function, which throws. */
  function OnAsWritten(t: Table, e: string, h: HandlerId): (r: Completion<Table>)
    ensures r.TypeError? <==> ReadsInherited(t, e)
    ensures r.Normal? ==> r.value == On(t, e, h)
  {
    if ReadsInherited(t, e) then TypeError else Normal(t[e := Handlers(t, e) + [h]])
  }

  /** `trigger` as written: `for ... of` over an inherited non-array
      throws, instead of yielding the empty result. */
  function TriggerAsWritten(run: Interp, t: Table, e: string, args: seq<Value>): (r: Completion<seq<Value>>)
    ensures r.TypeError? <==> ReadsInherited(t, e)
    ensures r.Normal? ==> r.value == Trigger(run, t, e, args)
  {
    if ReadsInherited(t, e) then TypeError else Normal(Dispatch(run, Handlers(t, e), args))
  }

  /** `off` as written: `.filter` on an inherited function throws. */
  function OffAsWritten(t: Table, e: string, h: HandlerId): (r: Completion<Table>)
    ensures r.TypeError? <==> ReadsInherited(t, e)
    ensures r.Normal? ==> r.value == Off(t, e, h)
  {
    if ReadsInherited(t, e) then TypeError
    else if e in t then Normal(t[e := Without(t[e], h)])
    else Normal(t)
  }

  /** On a fresh table, inherited names make all three operations throw,
      whereas an unregistered name is meant to behave as having no
      handlers: `on` starting a list, `trigger` returning nothing, `off`
      doing nothing. */
  lemma InheritedNameThrows(run: Interp, h: HandlerId)
    ensures OnAsWritten(Empty(), "constructor", h).TypeError?
    ensures TriggerAsWritten(run, Empty(), "toString", []).TypeError?
    ensures OffAsWritten(Empty(), "valueOf", h).TypeError?
    ensures Handlers(On(Empty(), "constructor", h), "constructor") == [h]
    ensures Trigger(run, Empty(), "toString", []) == []
    ensures Off(Empty(), "valueOf", h) == Empty()
  {
    assert "constructor" in InheritedNames;
    assert "toString" in InheritedNames;
    assert "valueOf" in InheritedNames;
  }
}

=== FILE: js_value.dfy ===
/**
 * The JavaScript values that flow through the event table: handler
 * arguments and handler results. Only what the calculator inspects is
 * kept: numbers are integers, and a function value is an opaque callback
 * identifier whose behaviour an environment supplies.
 */
module JsValue {

  /** Identity of a function value returned by a `pressed` handler. */
  type CallbackId = nat

  datatype Value =
    | Undefined
    | Null
    | Bool(b: bool)
    | Num(n: int)
    | Str(s: string)
    | Fn(callback: CallbackId)

  /** JavaScript's ToBoolean: `undefined`, `null`, `false`, `0` and the
      empty string are falsy; every other value, functions included, is truthy. */
  predicate Truthy(v: Value) {
    match v
    case Undefined => false
    case Null => false
    case Bool(b) => b
    case Num(n) => n != 0
    case Str(s) => |s| != 0
    case Fn(_) => true
  }
}

=== FILE: plugins.dfy ===
/**
 * The plugins shipped with the calculator, as handler and callback
 * behaviours, and the scenarios they are meant to produce.
 *
 * `LogPlugins` only writes to the console; its handlers' return value,
 * `undefined`, is all the model keeps of them.
 */
module Plugins {
  import opened JsValue
  import opened Hooks
  import opened Calculators

  // Handler identities
  const LimitCheck: HandlerId := 0
  const LogPlus: HandlerId := 1
  const LogMinus: HandlerId := 2
  const LogChanged: HandlerId := 3
  const MoreOperatorsPressed: HandlerId := 4
  const MoreOperators1Pressed: HandlerId := 5

  // Callback identities
  const Squared: CallbackId := 0
  const Multiply: CallbackId := 1
  const Squared1: CallbackId := 2

  /** The largest value `LimitPlugins` lets through. */
  const Limit := 2000

  /** What each handler returns. `LimitPlugins` vetoes values above the
      limit; the operator plugins map a button name to a callback or to
      `undefined`; the logging handlers return `undefined`. */
  function Handler(h: HandlerId): seq<Value> -> Value {
    (args: seq<Value>) =>
      if h == LimitCheck then
        Bool(!(|args| > 0 && args[0].Num? && Limit < args[0].n))
      else if h == MoreOperatorsPressed then
        if |args| > 0 && args[0] == Str("squared") then Fn(Squared)
        else if |args| > 0 && args[0] == Str("multiply") then Fn(Multiply)
        else Undefined
      else if h == MoreOperators1Pressed then
        if |args| > 0 && args[0] == Str("squared") then Fn(Squared1) else Undefined
      else Undefined
  }

  /** What each callback computes from the current value and the extra
      argument of `press`. */
  function Callback(id: CallbackId): (int, int) -> int {
    (current: int, extra: int) =>
      if id == Multiply then current * extra else current * current
  }

  /** What each plugin handler answers. */
  lemma HandlerResults()
    ensures forall v :: Handler(LimitCheck)([Num(v)]) == Bool(v <= Limit)
    ensures Handler(MoreOperatorsPressed)([Str("squared")]) == Fn(Squared)
    ensures Handler(MoreOperatorsPressed)([Str("multiply")]) == Fn(Multiply)
    ensures forall name :: name != "squared" && name != "multiply" ==>
              Handler(MoreOperatorsPressed)([Str(name)]) == Undefined
    ensures Handler(MoreOperators1Pressed)([Str("squared")]) == Fn(Squared1)
    ensures forall name :: name != "squared" ==> Handler(MoreOperators1Pressed)([Str(name)]) == Undefined
    ensures forall args :: Handler(LogPlus)(args) == Undefined
    ensures forall args :: Handler(LogMinus)(args) == Undefined
    ensures forall args :: Handler(LogChanged)(args) == Undefined
  {
  }

  /** What each returned callback computes. */
  lemma CallbackResults()
    ensures forall current, extra :: Callback(Squared)(current, extra) == current * current
    ensures forall current, extra :: Callback(Squared1)(current, extra) == current * current
    ensures forall current, extra :: Callback(Multiply)(current, extra) == current * extra
  {
  }

  const Demo := Env(Handler, Callback)

  const LogPlugins := Plugin([
    Registration(PressedPlus, LogPlus),
    Registration(PressedMinus, LogMinus),
    Registration(Changed, LogChanged)])
  const LimitPlugins := Plugin([Registration(WillChange, LimitCheck)])
  const MoreOperatorPlugins := Plugin([Registration(Pressed, MoreOperatorsPressed)])
  const MoreOperatorPlugins1 := Plugin([Registration(Pressed, MoreOperators1Pressed)])

  /** The plugin list of the demo script. */
  const AllPlugins := [LogPlugins, LimitPlugins, MoreOperatorPlugins, MoreOperatorPlugins1]

  /** The demo's plugins register, per event, each plugin's handlers in
      plugin order. */
  lemma AllPluginsSplit(e: string)
    ensures PluginHandlers(AllPlugins, e)
         == HandlersFor(LogPlugins.registrations, e)
          + HandlersFor(LimitPlugins.registrations, e)
          + HandlersFor(MoreOperatorPlugins.registrations, e)
          + HandlersFor(MoreOperatorPlugins1.registrations, e)
  {
    PluginHandlersCons(MoreOperatorPlugins1, [], e);
    assert [MoreOperatorPlugins1] == [MoreOperatorPlugins1] + [];
    PluginHandlersCons(MoreOperatorPlugins, [MoreOperatorPlugins1], e);
    PluginHandlersCons(LimitPlugins, [MoreOperatorPlugins, MoreOperatorPlugins1], e);
    PluginHandlersCons(LogPlugins, [LimitPlugins, MoreOperatorPlugins, MoreOperatorPlugins1], e);
  }

  /** The demo's event table: the gate and the two operator handlers, in
      plugin order. */
  lemma AllPluginsHandlers()
    ensures PluginHandlers(AllPlugins, WillChange) == [LimitCheck]
    ensures PluginHandlers(AllPlugins, Pressed) == [MoreOperatorsPressed, MoreOperators1Pressed]
  {
    AllPluginsSplit(WillChange);
    AllPluginsSplit(Pressed);
    HandlersForAbsent(LogPlugins.registrations, WillChange);
    HandlersForAbsent(LogPlugins.registrations, Pressed);
    HandlersForSingle(LimitPlugins.registrations[0], WillChange);
    HandlersForSingle(LimitPlugins.registrations[0], Pressed);
    HandlersForSingle(MoreOperatorPlugins.registrations[0], WillChange);
    HandlersForSingle(MoreOperatorPlugins.registrations[0], Pressed);
    HandlersForSingle(MoreOperatorPlugins1.registrations[0], WillChange);
    HandlersForSingle(MoreOperatorPlugins1.registrations[0], Pressed);
  }

  /** The two operator plugins alone register their `pressed` handlers,
      in order, and no gate. */
  lemma OperatorHandlers()
    ensures PluginHandlers([MoreOperatorPlugins1], WillChange) == []
    ensures PluginHandlers([MoreOperatorPlugins1], Pressed) == [MoreOperators1Pressed]
    ensures PluginHandlers([MoreOperatorPlugins, MoreOperatorPlugins1], WillChange) == []
    ensures PluginHandlers([MoreOperatorPlugins, MoreOperatorPlugins1], Pressed)
         == [MoreOperatorsPressed, MoreOperators1Pressed]
  {
    assert [MoreOperatorPlugins1] == [MoreOperatorPlugins1] + [];
    PluginHandlersCons(MoreOperatorPlugins1, [], WillChange);
    PluginHandlersCons(MoreOperatorPlugins1, [], Pressed);
    PluginHandlersCons(MoreOperatorPlugins, [MoreOperatorPlugins1], WillChange);
    PluginHandlersCons(MoreOperatorPlugins, [MoreOperatorPlugins1], Pressed);
    HandlersForSingle(MoreOperatorPlugins.registrations[0], WillChange);
    HandlersForSingle(MoreOperatorPlugins.registrations[0], Pressed);
    HandlersForSingle(MoreOperatorPlugins1.registrations[0], WillChange);
    HandlersForSingle(MoreOperatorPlugins1.registrations[0], Pressed);
  }

  /** With `LimitPlugins` as the only gate, a change is accepted exactly
      when the new value does not exceed the limit. */
  lemma LimitPermits(t: Table, v: int)
    requires Handlers(t, WillChange) == [LimitCheck]
    ensures Permits(Demo, t, v) <==> v <= Limit
  {
    var hs := Handlers(t, WillChange);
    assert Demo.handler(hs[0])([Num(v)]) == Bool(v <= Limit);
  }

  /** Without plugins, `plus(10)` from 0 gives 10. */
  lemma PlusWithoutPlugins()
    ensures Plus(Demo, New(0, []), 10).after.currentValue == 10
  {
    var c := New(0, []);
    assert Handlers(c.hooks, WillChange) == [];
  }

  /** With `LimitPlugins`, `plus(10); minus(5); plus(2000)` from 0 ends at 5:
      the last change, to 2005, is vetoed and `valueChanged` reports 5. */
  lemma LimitScenario()
    ensures var c0 := New(0, AllPlugins);
            var s1 := Plus(Demo, c0, 10);
            var s2 := Minus(Demo, s1.after, 5);
            var s3 := Plus(Demo, s2.after, 2000);
            s1.after.currentValue == 10 && s2.after.currentValue == 5 && s3.after.currentValue == 5
            && s3.emitted[2] == Emission(Changed, [Num(5)])
  {
    var c0 := New(0, AllPlugins);
    AllPluginsHandlers();
    LimitPermits(c0.hooks, 10);
    LimitPermits(c0.hooks, 5);
    LimitPermits(c0.hooks, 2005);
  }

  /** `pressed("squared")` with both operator plugins yields their two
      squaring callbacks, in registration order. */
  lemma SquaredCallbacks(c: Calculator)
    requires Handlers(c.hooks, Pressed) == [MoreOperatorsPressed, MoreOperators1Pressed]
    ensures Trigger(Demo.handler, c.hooks, Pressed, [Str("squared")]) == [Fn(Squared), Fn(Squared1)]
  {
  }

  /** From any calculator whose `pressed` handlers are the two operator
      plugins' and which has no gate, `press("squared")` squares twice. */
  lemma PressSquaredTwice(c: Calculator, x: int)
    requires Handlers(c.hooks, Pressed) == [MoreOperatorsPressed, MoreOperators1Pressed]
    requires Handlers(c.hooks, WillChange) == []
    ensures Press(Demo, c, "squared", x).Returned?
    ensures Press(Demo, c, "squared", x).step.after.currentValue
         == (c.currentValue * c.currentValue) * (c.currentValue * c.currentValue)
  {
    SquaredCallbacks(c);
    var cbs := [Fn(Squared), Fn(Squared1)];
    assert !HasNonCallable(cbs);
    ApplyWithoutVeto(Demo, c, cbs, x);
    var w := c.currentValue * c.currentValue;
    assert Chain(Callback, cbs, c.currentValue, x) == Chain(Callback, cbs[1..], w, x);
    assert Chain(Callback, cbs[1..], w, x) == Chain(Callback, [], w * w, x);
  }

  /** With both operator plugins and no gate, `press("squared")` from `v`
      reaches `v * v * v * v`. */
  lemma SquaredTwice(v: int, x: int)
    ensures var r := Press(Demo, New(v, [MoreOperatorPlugins, MoreOperatorPlugins1]), "squared", x);
            r.Returned? && r.step.after.currentValue == (v * v) * (v * v)
  {
    OperatorHandlers();
    PressSquaredTwice(New(v, [MoreOperatorPlugins, MoreOperatorPlugins1]), x);
  }

  /** With one squaring plugin, `press("squared")` from 5 gives 25. */
  lemma SquaredOnce()
    ensures Press(Demo, New(5, [MoreOperatorPlugins1]), "squared", 0).step.after.currentValue == 25
  {
    var c := New(5, [MoreOperatorPlugins1]);
    OperatorHandlers();
    var cbs := [Fn(Squared1)];
    assert Trigger(Demo.handler, c.hooks, Pressed, [Str("squared")]) == cbs;
    ApplyWithoutVeto(Demo, c, cbs, 0);
  }

  /** The demo's table: `LimitPlugins` gating, both operator plugins
      answering `pressed`. */
  predicate DemoTable(t: Table) {
    && Handlers(t, WillChange) == [LimitCheck]
    && Handlers(t, Pressed) == [MoreOperatorsPressed, MoreOperators1Pressed]
  }

  /** With the gate in place, `press("squared")` squares twice as long as
      both squares stay within the limit. */
  lemma PressSquaredGated(c: Calculator, x: int)
    requires DemoTable(c.hooks)
    requires (c.currentValue * c.currentValue) * (c.currentValue * c.currentValue) <= Limit
    ensures Press(Demo, c, "squared", x).Returned?
    ensures Press(Demo, c, "squared", x).step.after.currentValue
         == (c.currentValue * c.currentValue) * (c.currentValue * c.currentValue)
  {
    SquaredCallbacks(c);
    var w := c.currentValue * c.currentValue;
    assert w <= w * w by {
      if w >= 1 {
        assert w * 1 <= w * w;
      }
    }
    LimitPermits(c.hooks, w);
    LimitPermits(c.hooks, w * w);
    var s := SetValue(Demo, c, w);
    assert Demo.callback(Squared)(c.currentValue, x) == w;
    assert s.after.currentValue == w;
    var s' := SetValue(Demo, s.after, w * w);
    assert Demo.callback(Squared1)(w, x) == w * w;
    assert s'.after.currentValue == w * w;
    assert [Fn(Squared), Fn(Squared1)][1..] == [Fn(Squared1)];
    assert [Fn(Squared1)][1..] == [];
    var last := Apply(Demo, s.after, [Fn(Squared1)], x);
    assert last == Apply(Demo, s'.after, [], x).Prepend(s'.emitted);
    assert last.step.after.currentValue == w * w;
    assert Apply(Demo, c, [Fn(Squared), Fn(Squared1)], x) == last.Prepend(s.emitted);
  }

  /** `press("multiply", x)` tries one multiplication: the second operator
      plugin answers `undefined`, which is skipped. The gate keeps the
      product when it is at most the limit and the old value otherwise. */
  lemma PressMultiplyGated(c: Calculator, x: int)
    requires DemoTable(c.hooks)
    ensures Press(Demo, c, "multiply", x).Returned?
    ensures c.currentValue * x <= Limit ==>
              Press(Demo, c, "multiply", x).step.after.currentValue == c.currentValue * x
    ensures Limit < c.currentValue * x ==>
              Press(Demo, c, "multiply", x).step.after.currentValue == c.currentValue
  {
    var cbs := Trigger(Demo.handler, c.hooks, Pressed, [Str("multiply")]);
    assert cbs == [Fn(Multiply), Undefined];
    var r := c.currentValue * x;
    LimitPermits(c.hooks, r);
    var kept := if r <= Limit then r else c.currentValue;
    ApplyStep(Demo, c, Fn(Multiply), [Undefined], x);
    assert [Fn(Multiply)] + [Undefined] == cbs;
    assert [Undefined][1..] == [];
    var c' := Calculator(c.hooks, kept);
    assert Apply(Demo, c', [Undefined], x) == Returned(Step(c', []));
  }

  /** With the gate in place, a square above the limit is vetoed, and so is
      the second square, computed from the same kept value: `press("squared")`
      leaves the value unchanged. */
  lemma PressSquaredVetoed(c: Calculator, x: int)
    requires DemoTable(c.hooks)
    requires Limit < c.currentValue * c.currentValue
    ensures Press(Demo, c, "squared", x).Returned?
    ensures Press(Demo, c, "squared", x).step.after.currentValue == c.currentValue
  {
    SquaredCallbacks(c);
    var w := c.currentValue * c.currentValue;
    LimitPermits(c.hooks, w);
    assert Demo.callback(Squared)(c.currentValue, x) == w;
    assert Demo.callback(Squared1)(c.currentValue, x) == w;
    ApplyStep(Demo, c, Fn(Squared), [Fn(Squared1)], x);
    ApplyStep(Demo, c, Fn(Squared1), [], x);
    assert [Fn(Squared), Fn(Squared1)] == [Fn(Squared)] + [Fn(Squared1)];
    assert [Fn(Squared1)] == [Fn(Squared1)] + [];
    assert Calculator(c.hooks, c.currentValue) == c;
  }

  /** The demo script end to end: 10, 5, 5 (vetoed), then `press("squared")`
      squares twice (25, 625) and `press("multiply", 2)` doubles once: 1250. */
  lemma DemoScript()
    ensures var c0 := New(0, AllPlugins);
            var s1 := Plus(Demo, c0, 10);
            var s2 := Minus(Demo, s1.after, 5);
            var s3 := Plus(Demo, s2.after, 2000);
            var p1 := Press(Demo, s3.after, "squared", 0);
            var p2 := Press(Demo, p1.step.after, "multiply", 2);
            p1.Returned? && p1.step.after.currentValue == 625
            && p2.Returned? && p2.step.after.currentValue == 1250
  {
    LimitScenario();
    AllPluginsHandlers();
    var c0 := New(0, AllPlugins);
    var c := Plus(Demo, Minus(Demo, Plus(Demo, c0, 10).after, 5).after, 2000).after;
    assert c.hooks == c0.hooks && c.currentValue == 5;
    PressSquaredGated(c, 0);
    var p1 := Press(Demo, c, "squared", 0);
    assert p1.step.after.hooks == c0.hooks;
    PressMultiplyGated(p1.step.after, 2);
  }
}
